=== FILE: README.md ===
# Primitive codecs of the protocol crate

This project models `protocol/src/fixed_codec/primitive.rs`. That file holds two codecs.

- **`FixedCodec`** gives each scalar and byte carrier a compact, untagged byte form:
  - `bool` and `u8` take one byte;
  - `u32` and `u64` take 4 and 8 little-endian bytes;
  - `String` is its UTF-8 bytes;
  - `Bytes` is itself.
- **RLP adapters** (`rlp::Encodable` / `rlp::Decodable`) cover the domain values:
  - `Hex` is a one-item list holding the digits without "0x";
  - `Hash` and `Address` are each a one-item list holding the raw bytes;
  - `ValidatorExtend` is a four-item list;
  - `Metadata` is a thirteen-item list whose item 6 is a nested list of validators.

  Decoders read positionally with `at(i)` and fail on the first missing or malformed item.

Modules:

- `Wrappers`: `Option` and `Result`.
- `Octets`:
  - the byte, `u32` and `u64` ranges;
  - fixed-width little-endian layout;
  - minimal big-endian layout, the RLP integer rule of Appendix B of the Ethereum Yellow Paper.
- `Utf8`: UTF-8 as in section 3 of RFC 3629. It proves that `Decode(bs) == Ok(s)` holds exactly when `Encode(s) == bs`.
- `FixedCodec`: the byte-level impls.
- `RlpTree`: an RLP item as a tree of data items and lists. It models the reads the adapters use (`is_list`, `size`, `at`, `data`, and `as_val` for integers and strings) and the leaf forms they write: raw byte strings, integers and strings.
- `Types`: `Hash`, `Address` and `Hex` as validated subset types, plus `ValidatorExtend` and `Metadata`.
- `RlpAdapters`: the RLP impls, including `as_list` for the nested validator list.

Every encoder has a decoder partner, and a round-trip lemma connects the two. For bool, u32, u64, ValidatorExtend and Metadata, a further lemma shows that bytes or items past the ones read do not change the result. The success condition of each leaf and one-item decoder is stated as an if-and-only-if, and so are the `RlpInvalidLength`, `Custom` and `RlpIncorrectListLen` cases. The integer leaf errors and the errors of the positional reads are stated only as the set of kinds that can occur.

## Model

| member | source | states |
|---|---|---|
| FixedCodec.EncodeFixedBool | protocol/src/fixed_codec/primitive.rs:14-22 | one byte; it is 1 exactly for `true`, else 0 |
| FixedCodec.DecodeFixedBool | protocol/src/fixed_codec/primitive.rs:24-32 | succeeds iff there is a first byte and it is 0 or 1; the value re-encodes to that byte; every failure is `DecodeBool` |
| FixedCodec.BoolRoundTrip | protocol/src/fixed_codec/primitive.rs:13-33 | decoding an encoded bool followed by anything gives the bool back |
| FixedCodec.BoolDecodeReadsFirstByte | protocol/src/fixed_codec/primitive.rs:25 | inputs with the same first byte decode alike |
| FixedCodec.EncodeFixedU8 | protocol/src/fixed_codec/primitive.rs:36-38 | the one-byte sequence holding the value |
| FixedCodec.DecodeFixedU8 | protocol/src/fixed_codec/primitive.rs:40-44 | succeeds iff the input is non-empty, re-encoding to its first byte; empty input is `DecodeUint8` |
| FixedCodec.U8RoundTrip | protocol/src/fixed_codec/primitive.rs:35-45 | a u8 survives encode then decode whatever follows it |
| FixedCodec.EncodeFixedU32 | protocol/src/fixed_codec/primitive.rs:48-53 | four bytes, byte i being digit i of the value in base 256 (little-endian) |
| FixedCodec.DecodeFixedU32 | protocol/src/fixed_codec/primitive.rs:55-57 | the value whose little-endian encoding is exactly the first four bytes |
| FixedCodec.U32RoundTrip | protocol/src/fixed_codec/primitive.rs:47-58 | decode after encode is the identity, with any trailing bytes |
| FixedCodec.U32DecodeReadsPrefix | protocol/src/fixed_codec/primitive.rs:56 | bytes after the fourth do not change the result |
| FixedCodec.U32Examples | protocol/src/fixed_codec/primitive.rs:48-53 | 0x12345678 is laid out as 78 56 34 12; 0 and 0xFFFFFFFF as all-zero and all-FF |
| FixedCodec.EncodeFixedU64 | protocol/src/fixed_codec/primitive.rs:61-66 | eight bytes, byte i being digit i of the value in base 256 |
| FixedCodec.DecodeFixedU64 | protocol/src/fixed_codec/primitive.rs:68-70 | the value whose little-endian encoding is exactly the first eight bytes |
| FixedCodec.U64RoundTrip | protocol/src/fixed_codec/primitive.rs:60-71 | decode after encode is the identity, with any trailing bytes |
| FixedCodec.U64DecodeReadsPrefix | protocol/src/fixed_codec/primitive.rs:69 | bytes after the eighth do not change the result |
| FixedCodec.U64Examples | protocol/src/fixed_codec/primitive.rs:61-66 | 0 and 1 are laid out with the low byte first |
| FixedCodec.U64MaxExample | protocol/src/fixed_codec/primitive.rs:61-66 | the largest u64 is eight FF bytes |
| FixedCodec.EncodeFixedString | protocol/src/fixed_codec/primitive.rs:74-76 | the result is well-formed UTF-8 and no shorter than the string |
| FixedCodec.DecodeFixedString | protocol/src/fixed_codec/primitive.rs:78-80 | succeeds iff the bytes are well-formed UTF-8, and then they are the string's encoding; otherwise `StringUTF8` carries the bytes and a valid-up-to offset inside them |
| FixedCodec.StringRoundTrip | protocol/src/fixed_codec/primitive.rs:73-81 | every string survives encode then decode |
| FixedCodec.StringErrorOffset | protocol/src/fixed_codec/primitive.rs:79 | the offset carried by `StringUTF8` is `valid_up_to`: the bytes before it are UTF-8 and no longer prefix is |
| FixedCodec.StringExamples | protocol/src/fixed_codec/primitive.rs:73-81 | "abc" is 61 62 63 both ways; FF FE is rejected with valid-up-to 0 |
| FixedCodec.EncodeFixedBytes | protocol/src/fixed_codec/primitive.rs:99-101 | the bytes are their own form |
| FixedCodec.DecodeFixedBytes | protocol/src/fixed_codec/primitive.rs:103-105 | decoding never fails and returns the input |
| FixedCodec.BytesRoundTrip | protocol/src/fixed_codec/primitive.rs:98-106 | encode and decode are mutually inverse |
| Utf8.Encode | protocol/src/fixed_codec/primitive.rs:75 | the UTF-8 form of a string is at least one byte per character (its exact form is pinned by `Utf8.DecodeIffEncode`) |
| Utf8.Decode | protocol/src/fixed_codec/primitive.rs:79 | `String::from_utf8`: a failure reports an offset inside the input |
| Utf8.DecodeIffEncode | protocol/src/fixed_codec/primitive.rs:79 | `String::from_utf8` returns `s` exactly when the bytes are the UTF-8 encoding of `s` |
| Utf8.DecodeOkIffUtf8 | protocol/src/fixed_codec/primitive.rs:79 | decoding succeeds exactly on the encodings of strings |
| Utf8.ValidUpToIsValidPrefix | protocol/src/fixed_codec/primitive.rs:79 | on failure, the bytes before the reported offset are themselves valid UTF-8 |
| Utf8.ValidUpToIsLargest | protocol/src/fixed_codec/primitive.rs:79 | on failure, every prefix longer than the reported offset is ill-formed, so the offset is the longest valid prefix (Rust's `valid_up_to`) |
| Utf8.DecodeOfEncode | protocol/src/fixed_codec/primitive.rs:75 | decoding the encoding of a string gives the string |
| Utf8.EncodeOfDecode | protocol/src/fixed_codec/primitive.rs:79 | a successful decode re-encodes to its input |
| RlpTree.IsList | protocol/src/fixed_codec/primitive.rs:203 | `is_list()` holds exactly for items that are not data |
| RlpTree.Size | protocol/src/fixed_codec/primitive.rs:203 | `size()` is the payload length of a data item and 0 for a list |
| RlpTree.At | protocol/src/fixed_codec/primitive.rs:159-171 | `at(i)` succeeds iff the item is a list with more than i items; a data item is `RlpExpectedToBeList`; an index past the end is `RlpIsTooShort` |
| RlpTree.DataOf | protocol/src/fixed_codec/primitive.rs:117 | `data()` succeeds exactly on data items, returning their payload |
| RlpTree.EncodeUint | protocol/src/fixed_codec/primitive.rs:143-153 | an integer leaf is a data item holding the value in big-endian with no leading zero byte |
| RlpTree.DecodeUint | protocol/src/fixed_codec/primitive.rs:161-171 | an accepted leaf fits the width and is the canonical leaf of its value; the errors are `RlpExpectedToBeData`, `RlpIsTooBig` or `RlpInvalidIndirection` |
| RlpTree.UintDecodeIff | protocol/src/fixed_codec/primitive.rs:161-171 | a leaf decodes to v iff it is v's canonical leaf and v fits the width |
| RlpTree.DecodeU32 | protocol/src/fixed_codec/primitive.rs:209-210 | `as_val` for the two weights, taken to be `u32`: an accepted leaf is the canonical leaf of the value; the errors are `RlpExpectedToBeData`, `RlpIsTooBig` or `RlpInvalidIndirection` |
| RlpTree.DecodeU64 | protocol/src/fixed_codec/primitive.rs:161-171 | `as_val::<u64>`: an accepted leaf is the canonical leaf of the value; the errors are `RlpExpectedToBeData`, `RlpIsTooBig` or `RlpInvalidIndirection` |
| RlpTree.U32LeafRoundTrip | protocol/src/fixed_codec/primitive.rs:196-197 | every u32 weight survives its leaf form |
| RlpTree.U64LeafRoundTrip | protocol/src/fixed_codec/primitive.rs:143-153 | every u64 field survives its leaf form |
| RlpTree.EncodeText | protocol/src/fixed_codec/primitive.rs:85 | a string leaf is a data item holding well-formed UTF-8 |
| RlpTree.DecodeText | protocol/src/fixed_codec/primitive.rs:91 | a string read succeeds iff the item is data holding valid UTF-8, which is then the string's leaf; anything else is `RlpExpectedToBeData` |
| RlpTree.TextRoundTrip | protocol/src/fixed_codec/primitive.rs:85-91 | every string survives its leaf form |
| Types.HashFromBytes | protocol/src/fixed_codec/primitive.rs:117-118 | `Hash::from_bytes` succeeds iff there are 32 bytes, and keeps them |
| Types.AddressFromBytes | protocol/src/fixed_codec/primitive.rs:131-132 | `Address::from_bytes` succeeds iff there are 20 bytes, and keeps them |
| Types.HexFromString | protocol/src/fixed_codec/primitive.rs:93 | `Hex::from_string` succeeds iff the text is "0x" followed by hex digits, and keeps the text |
| Types.TrimHex | protocol/src/fixed_codec/primitive.rs:85 | "0x" followed by the trimmed digits is the hex text |
| RlpAdapters.HexToRlp | protocol/src/fixed_codec/primitive.rs:83-87 | a one-item list |
| RlpAdapters.HexFromRlp | protocol/src/fixed_codec/primitive.rs:89-96 | succeeds iff item 0 reads as a string that is a hex string once "0x" is prefixed, and item 0 is then the leaf of the trimmed digits; `Custom` is returned exactly when the string reads but is not hex; every other failure is a read error |
| RlpAdapters.HexRoundTrip | protocol/src/fixed_codec/primitive.rs:83-96 | the list holds the text without "0x", and decoding restores the prefix and the value |
| RlpAdapters.Deadbeef | protocol/src/fixed_codec/primitive.rs:83-96 | the hex value whose text is "0xdeadbeef" |
| RlpAdapters.HexExample | protocol/src/fixed_codec/primitive.rs:83-96 | "0xdeadbeef" travels as the string "deadbeef" and decodes back to itself |
| RlpAdapters.HashToRlp | protocol/src/fixed_codec/primitive.rs:109-113 | a one-item list |
| RlpAdapters.HashFromRlp | protocol/src/fixed_codec/primitive.rs:115-121 | succeeds iff item 0 is data of 32 bytes, which are the hash; data of any other length is exactly the `RlpInvalidLength` case |
| RlpAdapters.HashRoundTrip | protocol/src/fixed_codec/primitive.rs:109-121 | every hash survives encode then decode |
| RlpAdapters.AddressToRlp | protocol/src/fixed_codec/primitive.rs:123-127 | a one-item list |
| RlpAdapters.AddressFromRlp | protocol/src/fixed_codec/primitive.rs:129-136 | succeeds iff item 0 is data of 20 bytes, which are the address; data of any other length is exactly the `RlpInvalidLength` case |
| RlpAdapters.AddressRoundTrip | protocol/src/fixed_codec/primitive.rs:123-136 | every address survives encode then decode |
| RlpAdapters.ValidatorToRlp | protocol/src/fixed_codec/primitive.rs:191-199 | a four-item list |
| RlpAdapters.ValidatorFieldsFromRlp | protocol/src/fixed_codec/primitive.rs:207-217 | on success, items 0 and 1 decode as nested Hex and Address values, and items 2 and 3 are the canonical leaves of the weights; failures are read errors |
| RlpAdapters.ValidatorFromRlpAsWritten | protocol/src/fixed_codec/primitive.rs:201-219 | `RlpIncorrectListLen` is returned exactly for a data item whose payload is not 4 bytes; every data item fails; success needs a list of at least four items; any other failure is an error of one of the reads |
| RlpAdapters.ValidatorDecodeIff | protocol/src/fixed_codec/primitive.rs:201-219 | as written, a list of at least four items decodes to v iff items 0 and 1 decode as v's key and address and items 2 and 3 are the leaves of v's weights |
| RlpAdapters.ValidatorAsWrittenReadsFirstFour | protocol/src/fixed_codec/primitive.rs:207-210 | items after the fourth do not change the result |
| RlpAdapters.ValidatorAsWrittenAcceptsExtraItems | protocol/src/fixed_codec/primitive.rs:203-210 | an encoding with extra items appended still decodes to the value |
| RlpAdapters.ValidatorAsWrittenTruncated | protocol/src/fixed_codec/primitive.rs:203-210 | an encoding cut to fewer than four items passes the guard and fails with `RlpIsTooShort` |
| RlpAdapters.ValidatorFromRlp | protocol/src/fixed_codec/primitive.rs:201-219 | corrected guard: `RlpIncorrectListLen` exactly when the input is not a list of exactly four items; on success the items carry the fields |
| RlpAdapters.ValidatorRoundTrip | protocol/src/fixed_codec/primitive.rs:191-219 | every validator survives encode then decode |
| RlpAdapters.ValidatorGuardsAgreeOnFourItems | protocol/src/fixed_codec/primitive.rs:203-210 | on a four-item list the corrected and the as-written decoders agree |
| RlpAdapters.ValidatorsToRlp | protocol/src/fixed_codec/primitive.rs:147 | item i of `append_list` is the encoding of validator i |
| RlpAdapters.ValidatorsFromItems | protocol/src/fixed_codec/primitive.rs:165 | on success, one validator per item, each decoded from its item by the decoder as written; it succeeds whenever every item decodes; a failure is the error of the first item that fails |
| RlpAdapters.ValidatorListFromRlp | protocol/src/fixed_codec/primitive.rs:165 | `as_list` on a data item is the empty list; on a list, element i is item i decoded by the decoder as written, and the read succeeds whenever every item decodes |
| RlpAdapters.ValidatorListAcceptsExtraItems | protocol/src/fixed_codec/primitive.rs:165 | a nested validator with extra items appended is accepted, as the guard at line 203 lets every list through |
| RlpAdapters.ValidatorListRoundTrip | protocol/src/fixed_codec/primitive.rs:147-165 | every validator list survives encode then decode |
| RlpAdapters.MetadataToRlp | protocol/src/fixed_codec/primitive.rs:138-155 | a thirteen-item list |
| RlpAdapters.MetadataLayout | protocol/src/fixed_codec/primitive.rs:140-153 | item i is the encoding of field i in declaration order; item 6 is the nested list of validator encodings |
| RlpAdapters.U64At | protocol/src/fixed_codec/primitive.rs:161 | on success, item i exists and is the canonical leaf of the value |
| RlpAdapters.MetadataHeadFromRlp | protocol/src/fixed_codec/primitive.rs:159-160 | on success, items 0 and 1 decode as the hash and the hex |
| RlpAdapters.MetadataTimingFromRlp | protocol/src/fixed_codec/primitive.rs:161-164 | on success, items 2..5 decode as the four u64 fields |
| RlpAdapters.MetadataRatiosFromRlp | protocol/src/fixed_codec/primitive.rs:166-171 | on success, items 7..12 decode as the six u64 fields |
| RlpAdapters.MetadataFromRlp | protocol/src/fixed_codec/primitive.rs:157-189 | on success, the input is a list whose first thirteen items decode as the fields; a data item is `RlpExpectedToBeList` |
| RlpAdapters.MetadataErrorKinds | protocol/src/fixed_codec/primitive.rs:159-171 | a failed decode reports an error of one of its reads (positional, nested Hash/Hex/integer, or a nested validator's `RlpIncorrectListLen`) |
| RlpAdapters.MetadataFieldPositions | protocol/src/fixed_codec/primitive.rs:138-171 | each encoded field reads back with its own decoder at its index |
| RlpAdapters.MetadataFromFields | protocol/src/fixed_codec/primitive.rs:157-189 | a list whose items carry the fields decodes to them |
| RlpAdapters.MetadataDecodeIff | protocol/src/fixed_codec/primitive.rs:157-189 | a list decodes to m iff its items 0..12 decode as the fields of m |
| RlpAdapters.MetadataRoundTrip | protocol/src/fixed_codec/primitive.rs:138-189 | every metadata value survives encode then decode |
| RlpAdapters.MetadataSameReads | protocol/src/fixed_codec/primitive.rs:159-171 | two inputs with the same `at(0)` .. `at(12)` decode alike |
| RlpAdapters.MetadataReadsFirstThirteen | protocol/src/fixed_codec/primitive.rs:159-171 | items after the thirteenth are never read |
| RlpAdapters.MetadataPrefixTooShort | protocol/src/fixed_codec/primitive.rs:159-171 | a prefix of fewer than thirteen items of a decodable list fails with `RlpIsTooShort` |
| RlpAdapters.MetadataTruncated | protocol/src/fixed_codec/primitive.rs:138-171 | an encoding cut short fails with `RlpIsTooShort` |

## Left out

- Byte-level RLP framing (length prefixes, `as_raw`, the stream builder) is not modelled. RLP values are trees, which the RLP standard treats as the abstract form. Re-parsing `as_raw()` at lines 207-208 is therefore decoding the item itself.
- The `impl_default_fixed_codec_for!` macro at line 11 makes the fixed form of `Hash`, `Address`, `Hex` and `Metadata` their RLP bytes. It needs the byte-level framing above. Its definition is not part of this model.
- RlpTree.DataOf: on a list item the crate's `data()` returns the list's payload bytes. Here it is `RlpExpectedToBeData`, because the tree has no byte payload for a list.
- RlpAdapters.HashFromRlp: when item 0 is a list, the source passes the list's payload to `from_bytes`. It accepts a payload of exactly 32 bytes and gives `RlpInvalidLength` for any other length. The model returns `RlpExpectedToBeData` for every list-valued item 0, because the tree has no payload bytes for a list.
- RlpAdapters.AddressFromRlp: the same as for `Hash`, with 20 bytes: a list-valued item 0 is `RlpExpectedToBeData` here. The source accepts it when the list payload is 20 bytes and otherwise gives `RlpInvalidLength`.
- The rlp crate is not part of this model. These behaviours are taken from its documented semantics:
  - the error of each read;
  - `size()` being the payload length;
  - `as_list` on a data item being empty.
- The definitions of `Hash`, `Address` and `Hex` live in crate::types, which is not part of this model. Their assumed validity rules:
  - a 32-byte hash;
  - a 20-byte address;
  - "0x" followed by ASCII hex digits, with the empty digit string allowed.
- The field types of `ValidatorExtend` are assumed, because the struct is declared in crate::types and lines 207-210 do not name them. The model takes `bls_pub_key` to be `Hex`, `address` to be `Address`, and both weights to be `u32`. With a narrower weight type, leaves of more bytes than that type holds would be rejected with `RlpIsTooBig`. The `Metadata` field types, by contrast, are written out at lines 159-171.
- FixedCodec.DecodeFixedU32: the source panics on input shorter than four bytes. This is a precondition, not an error value.
- FixedCodec.DecodeFixedU64: the source panics on input shorter than eight bytes. This is a precondition, not an error value.
- FixedCodec.FixedCodecError: Rust's `FromUtf8Error` is reduced to the rejected bytes and `valid_up_to`. `error_len` is dropped.
- The conversion of each error into `ProtocolResult` is not modelled. Neither is the `Bytes`/`BytesMut` copying.
- RlpAdapters.MetadataFromRlp: decoding is split into three stages (head, timing, ratios) around the validator list. This keeps each proof small. The reads happen in the source's order and fail at the same first error. No lemma names which read fails first on a malformed list: that error is fixed only by the order of reads in the body, and `RlpAdapters.MetadataErrorKinds` states just the set of kinds it can be.

## Findings

The ValidatorExtend decoder guards with `!is_list() && size() != 4`. Because `&&` is used, no list is ever rejected. A list of three items then fails with `RlpIsTooShort`, and a list of five items is accepted. The evidently intended rule rejects anything but a four-item list with `RlpIncorrectListLen`, which is what the error's name `RlpIncorrectListLen` and the four-item encoder at lines 191-199 point to. The nested validator list in `Metadata` keeps the guard as written, like the source. `RlpAdapters.ValidatorGuardsAgreeOnFourItems` shows that the two guards agree on every four-item list, and so on every encoding.

| source | as written | input that shows it | evidently intended | confidence | as-written member | corrected member |
|---|---|---|---|---|---|---|
| protocol/src/fixed_codec/primitive.rs:203 | `!r.is_list() && r.size() != 4` lets every list through, so a truncated list gives `RlpIsTooShort` and extra items are ignored | the encoding of any validator cut to 3 items, or with a fifth item appended | `!r.is_list() \|\| item_count != 4` gives `RlpIncorrectListLen` | medium, not executed | RlpAdapters.ValidatorAsWrittenTruncated | RlpAdapters.ValidatorFromRlp |

=== FILE: fixed_codec.dfy ===
/** The `FixedCodec` implementations for scalars and byte carriers
    (protocol/src/fixed_codec/primitive.rs): compact, untagged,
    length-implicit byte forms. The bool, u8, u32 and u64 decoders read a
    fixed-length prefix and ignore what follows it; the String decoder
    validates, and the Bytes decoder returns, the whole input. */
module FixedCodec {
  import opened Wrappers
  import opened Octets
  import Utf8

  /** `FixedCodecError`, restricted to the variants these impls raise.
      `StringUTF8` carries Rust's `FromUtf8Error`: the rejected bytes and
      the offset up to which they were valid. */
  datatype FixedCodecError =
    | DecodeBool
    | DecodeUint8
    | StringUTF8(bytes: seq<byte>, validUpTo: nat)

  // ---------------------------------------------------------------------
  // bool

  function EncodeFixedBool(b: bool): (r: seq<byte>)
    ensures |r| == 1
    ensures r[0] == 0 || r[0] == 1
    ensures b <==> r[0] == 1
  {
    if b then [1] else [0]
  }

  /** Reads byte 0: 0 is false, 1 is true, anything else (or no byte at all)
      is `DecodeBool`. */
  function DecodeFixedBool(bs: seq<byte>): (r: Result<bool, FixedCodecError>)
    ensures r.Ok? <==> |bs| > 0 && (bs[0] == 0 || bs[0] == 1)
    ensures r.Ok? ==> EncodeFixedBool(r.value) == bs[..1]
    ensures r.Err? ==> r.error == DecodeBool
  {
    if |bs| == 0 then Err(DecodeBool)
    else if bs[0] == 0 then Ok(false)
    else if bs[0] == 1 then Ok(true)
    else Err(DecodeBool)
  }

  lemma BoolRoundTrip(b: bool, tail: seq<byte>)
    ensures DecodeFixedBool(EncodeFixedBool(b) + tail) == Ok(b)
  {
  }

  /** Only byte 0 matters: two inputs that agree on it decode alike. */
  lemma BoolDecodeReadsFirstByte(bs: seq<byte>, bs': seq<byte>)
    requires |bs| > 0 && |bs'| > 0 && bs[0] == bs'[0]
    ensures DecodeFixedBool(bs) == DecodeFixedBool(bs')
  {
  }

  // ---------------------------------------------------------------------
  // u8

  function EncodeFixedU8(v: byte): (r: seq<byte>)
    ensures |r| == 1 && r[0] == v
  {
    [v]
  }

  /** The first byte, or `DecodeUint8` on empty input. */
  function DecodeFixedU8(bs: seq<byte>): (r: Result<byte, FixedCodecError>)
    ensures r.Ok? <==> |bs| > 0
    ensures r.Ok? ==> EncodeFixedU8(r.value) == bs[..1]
    ensures r.Err? ==> r.error == DecodeUint8
  {
    if |bs| == 0 then Err(DecodeUint8) else Ok(bs[0])
  }

  lemma U8RoundTrip(v: byte, tail: seq<byte>)
    ensures DecodeFixedU8(EncodeFixedU8(v) + tail) == Ok(v)
  {
  }

  // ---------------------------------------------------------------------
  // u32 and u64, little-endian

  /** Four bytes, byte i holding `(v >> 8i) & 0xFF`. */
  function EncodeFixedU32(v: u32): (r: seq<byte>)
    ensures |r| == 4
    ensures forall i :: 0 <= i < 4 ==> r[i] == (v / Pow256(i)) % 256
  {
    LeBytesDigits(v, 4);
    LeBytes(v, 4)
  }

  /** `LittleEndian::read_u32`: the value of the first four bytes. The
      source panics on shorter input, hence the precondition. */
  function DecodeFixedU32(bs: seq<byte>): (r: u32)
    requires |bs| >= 4
    ensures EncodeFixedU32(r) == bs[..4]
  {
    Pow256Widths();
    LeBytesOfLeValue(bs[..4]);
    LeValue(bs[..4])
  }

  lemma U32RoundTrip(v: u32, tail: seq<byte>)
    ensures DecodeFixedU32(EncodeFixedU32(v) + tail) == v
  {
    Pow256Widths();
    var bs := EncodeFixedU32(v) + tail;
    assert bs[..4] == LeBytes(v, 4);
    LeValueOfLeBytes(v, 4);
  }

  /** Bytes after the fourth are never read. */
  lemma U32DecodeReadsPrefix(bs: seq<byte>, tail: seq<byte>)
    requires |bs| >= 4
    ensures DecodeFixedU32(bs + tail) == DecodeFixedU32(bs)
  {
    assert (bs + tail)[..4] == bs[..4];
  }

  /** Eight bytes, byte i holding `(v >> 8i) & 0xFF`. */
  function EncodeFixedU64(v: u64): (r: seq<byte>)
    ensures |r| == 8
    ensures forall i :: 0 <= i < 8 ==> r[i] == (v / Pow256(i)) % 256
  {
    LeBytesDigits(v, 8);
    LeBytes(v, 8)
  }

  /** `LittleEndian::read_u64`: the value of the first eight bytes. The
      source panics on shorter input, hence the precondition. */
  function DecodeFixedU64(bs: seq<byte>): (r: u64)
    requires |bs| >= 8
    ensures EncodeFixedU64(r) == bs[..8]
  {
    Pow256Widths();
    LeBytesOfLeValue(bs[..8]);
    LeValue(bs[..8])
  }

  lemma U64RoundTrip(v: u64, tail: seq<byte>)
    ensures DecodeFixedU64(EncodeFixedU64(v) + tail) == v
  {
    Pow256Widths();
    var bs := EncodeFixedU64(v) + tail;
    assert bs[..8] == LeBytes(v, 8);
    LeValueOfLeBytes(v, 8);
  }

  /** Bytes after the eighth are never read. */
  lemma U64DecodeReadsPrefix(bs: seq<byte>, tail: seq<byte>)
    requires |bs| >= 8
    ensures DecodeFixedU64(bs + tail) == DecodeFixedU64(bs)
  {
    assert (bs + tail)[..8] == bs[..8];
  }

  lemma U32Examples()
    ensures EncodeFixedU32(0) == [0, 0, 0, 0]
    ensures EncodeFixedU32(0x1234_5678) == [0x78, 0x56, 0x34, 0x12]
    ensures EncodeFixedU32(0xFFFF_FFFF) == [0xFF, 0xFF, 0xFF, 0xFF]
  {
  }

  lemma U64Examples()
    ensures EncodeFixedU64(0) == [0, 0, 0, 0, 0, 0, 0, 0]
    ensures EncodeFixedU64(1) == [1, 0, 0, 0, 0, 0, 0, 0]
  {
    assert LeBytes(0, 8) == [0, 0, 0, 0, 0, 0, 0, 0];
    assert LeBytes(1, 8) == [1, 0, 0, 0, 0, 0, 0, 0];
  }

  lemma U64MaxExample()
    ensures EncodeFixedU64(0xFFFF_FFFF_FFFF_FFFF) == [0xFF, 0xFF, 0xFF, 0xFF, 0xFF, 0xFF, 0xFF, 0xFF]
  {
    assert LeBytes(0xFFFF_FFFF_FFFF_FFFF, 8) == [0xFF, 0xFF, 0xFF, 0xFF, 0xFF, 0xFF, 0xFF, 0xFF];
  }

  // ---------------------------------------------------------------------
  // String and Bytes

  /** The raw UTF-8 bytes of the string, without a length prefix. */
  function EncodeFixedString(s: string): (r: seq<byte>)
    ensures Utf8.IsUtf8(r)
    ensures |r| >= |s|
  {
    Utf8.Encode(s)
  }

  /** `String::from_utf8`: fails with `StringUTF8` exactly on input that is
      not UTF-8; on success the input is the encoding of the result. */
  function DecodeFixedString(bs: seq<byte>): (r: Result<string, FixedCodecError>)
    ensures r.Ok? <==> Utf8.IsUtf8(bs)
    ensures r.Ok? ==> EncodeFixedString(r.value) == bs
    ensures r.Err? ==> r.error.StringUTF8? && r.error.bytes == bs && r.error.validUpTo < |bs|
  {
    Utf8.DecodeOkIffUtf8(bs);
    match Utf8.Decode(bs)
    case Ok(s) =>
      Utf8.EncodeOfDecode(bs);
      Ok(s)
    case Err(e) => Err(StringUTF8(bs, e.validUpTo))
  }

  lemma StringRoundTrip(s: string)
    ensures DecodeFixedString(EncodeFixedString(s)) == Ok(s)
  {
    Utf8.DecodeOfEncode(s);
  }

  /** The offset `StringUTF8` reports is `valid_up_to`: the prefix before
      it is UTF-8 and no longer prefix is. */
  lemma StringErrorOffset(bs: seq<byte>, k: nat)
    requires DecodeFixedString(bs).Err?
    ensures Utf8.IsUtf8(bs[..DecodeFixedString(bs).error.validUpTo])
    ensures DecodeFixedString(bs).error.validUpTo < k <= |bs| ==> !Utf8.IsUtf8(bs[..k])
  {
    Utf8.DecodeOkIffUtf8(bs);
    var e := Utf8.Decode(bs).error.validUpTo;
    Utf8.ValidUpToIsValidPrefix(bs);
    Utf8.DecodeOkIffUtf8(bs[..e]);
    if e < k <= |bs| {
      Utf8.ValidUpToIsLargest(bs, k);
      Utf8.DecodeOkIffUtf8(bs[..k]);
    }
  }

  lemma StringExamples()
    ensures EncodeFixedString("abc") == [0x61, 0x62, 0x63]
    ensures DecodeFixedString([0x61, 0x62, 0x63]) == Ok("abc")
    ensures DecodeFixedString([0xFF, 0xFE]) == Err(StringUTF8([0xFF, 0xFE], 0))
  {
    assert Utf8.Encode("abc") == [0x61, 0x62, 0x63];
    StringRoundTrip("abc");
  }

  /** `Bytes` is its own fixed form. */
  function EncodeFixedBytes(b: seq<byte>): (r: seq<byte>)
    ensures r == b
  {
    b
  }

  function DecodeFixedBytes(bs: seq<byte>): (r: Result<seq<byte>, FixedCodecError>)
    ensures r == Ok(bs)
  {
    Ok(bs)
  }

  lemma BytesRoundTrip(b: seq<byte>)
    ensures DecodeFixedBytes(EncodeFixedBytes(b)) == Ok(b)
    ensures EncodeFixedBytes(DecodeFixedBytes(b).value) == b
  {
  }
}

=== FILE: octets.dfy ===
/** Bytes and fixed-width unsigned integers, with the two integer layouts the
    codecs use: fixed-width little-endian (FixedCodec) and minimal big-endian
    (the RLP scalar rule of Appendix B of the Ethereum Yellow Paper). */
module Octets {

  type byte = b: int | 0 <= b < 256
  type u32 = x: int | 0 <= x < 0x1_0000_0000
  type u64 = x: int | 0 <= x < 0x1_0000_0000_0000_0000

  /** 256^n, the number of values that fit in n bytes. */
  function Pow256(n: nat): (r: nat)
    ensures r >= 1
  {
    if n == 0 then 1 else 256 * Pow256(n - 1)
  }

  lemma Pow256Widths()
    ensures Pow256(1) == 0x100
    ensures Pow256(4) == 0x1_0000_0000
    ensures Pow256(8) == 0x1_0000_0000_0000_0000
  {
    assert Pow256(2) == 0x1_0000;
    assert Pow256(3) == 0x100_0000;
    assert Pow256(5) == 0x100_0000_0000;
    assert Pow256(6) == 0x1_0000_0000_0000;
    assert Pow256(7) == 0x100_0000_0000_0000;
  }

  lemma MulAtLeast(d: int, k: int)
    requires d > 0 && k >= 1
    ensures d * k >= d
  {
    assert d * k == d * (k - 1) + d;
    assert d * (k - 1) >= 0;
  }

  lemma DivModUnique(a: int, d: int, q: int, r: int)
    requires d > 0 && 0 <= r < d && a == d * q + r
    ensures a / d == q && a % d == r
  {
    var q' := a / d;
    var r' := a % d;
    assert a == d * q' + r';
    if q' > q {
      assert d * q' - d * q == d * (q' - q);
      MulAtLeast(d, q' - q);
    } else if q' < q {
      assert d * q - d * q' == d * (q - q');
      MulAtLeast(d, q - q');
    }
  }

  lemma MulMonotone(a: nat, x: nat, y: nat)
    requires x <= y
    ensures a * x <= a * y
  {
    assert a * y == a * x + a * (y - x);
  }

  /** Dividing twice is dividing by the product. */
  lemma DivDiv(v: nat, a: nat, b: nat)
    requires a >= 1 && b >= 1
    ensures (v / a) / b == v / (a * b)
  {
    var q := (v / a) / b;
    var r2 := (v / a) % b;
    var r1 := v % a;
    assert v / a == b * q + r2;
    assert v == a * (v / a) + r1;
    assert a * (b * q + r2) == (a * b) * q + a * r2;
    MulMonotone(a, r2, b - 1);
    assert a * (b - 1) == a * b - a;
    DivModUnique(v, a * b, q, a * r2 + r1);
  }

  // ---------------------------------------------------------------------
  // Fixed-width little-endian

  /** The `width` low-order bytes of `v`, least significant first. */
  function LeBytes(v: nat, width: nat): (r: seq<byte>)
    ensures |r| == width
  {
    if width == 0 then [] else [v % 256] + LeBytes(v / 256, width - 1)
  }

  /** The number a little-endian byte string denotes. */
  function LeValue(bs: seq<byte>): (r: nat)
    ensures r < Pow256(|bs|)
  {
    if |bs| == 0 then 0
    else
      var rest := LeValue(bs[1..]);
      assert rest <= Pow256(|bs| - 1) - 1;
      assert 256 * rest <= 256 * Pow256(|bs| - 1) - 256;
      bs[0] + 256 * rest
  }

  /** Byte i of the little-endian layout is `(v >> 8i) & 0xFF`. */
  lemma {:induction false} LeBytesDigit(v: nat, width: nat, i: nat)
    requires i < width
    ensures LeBytes(v, width)[i] == (v / Pow256(i)) % 256
  {
    if i > 0 {
      LeBytesDigit(v / 256, width - 1, i - 1);
      DivDiv(v, 256, Pow256(i - 1));
    }
  }

  /** Every byte of the little-endian layout at once. */
  lemma LeBytesDigits(v: nat, width: nat)
    ensures forall i :: 0 <= i < width ==> LeBytes(v, width)[i] == (v / Pow256(i)) % 256
  {
    forall i | 0 <= i < width {
      LeBytesDigit(v, width, i);
    }
  }

  lemma {:induction false} LeValueOfLeBytes(v: nat, width: nat)
    requires v < Pow256(width)
    ensures LeValue(LeBytes(v, width)) == v
  {
    if width > 0 {
      var bs := LeBytes(v, width);
      assert bs[1..] == LeBytes(v / 256, width - 1);
      LeValueOfLeBytes(v / 256, width - 1);
    }
  }

  lemma {:induction false} LeBytesOfLeValue(bs: seq<byte>)
    ensures LeBytes(LeValue(bs), |bs|) == bs
  {
    if |bs| > 0 {
      var v := LeValue(bs);
      DivModUnique(v, 256, LeValue(bs[1..]), bs[0]);
      LeBytesOfLeValue(bs[1..]);
    }
  }

  // ---------------------------------------------------------------------
  // Minimal big-endian

  /** The number a big-endian byte string denotes. */
  function BeValue(bs: seq<byte>): (r: nat)
    ensures r < Pow256(|bs|)
  {
    if |bs| == 0 then 0
    else
      var high := BeValue(bs[..|bs| - 1]);
      assert high <= Pow256(|bs| - 1) - 1;
      assert 256 * high <= 256 * Pow256(|bs| - 1) - 256;
      high * 256 + bs[|bs| - 1]
  }

  /** The shortest big-endian string for `v`: empty for zero, otherwise no
      leading zero byte. */
  function MinimalBe(v: nat): (r: seq<byte>)
    decreases v
  {
    if v == 0 then [] else MinimalBe(v / 256) + [v % 256]
  }

  lemma {:induction false} MinimalBeNoLeadingZero(v: nat)
    ensures |MinimalBe(v)| == 0 <==> v == 0
    ensures |MinimalBe(v)| > 0 ==> MinimalBe(v)[0] != 0
    decreases v
  {
    if v > 0 && v / 256 > 0 {
      MinimalBeNoLeadingZero(v / 256);
    }
  }

  /** `v` fits in `width` bytes exactly when its minimal form is at most
      `width` bytes long. */
  lemma {:induction false} MinimalBeFits(v: nat, width: nat)
    ensures |MinimalBe(v)| <= width <==> v < Pow256(width)
    decreases v
  {
    if v > 0 && width > 0 {
      MinimalBeFits(v / 256, width - 1);
    }
  }

  lemma {:induction false} BeValueOfMinimalBe(v: nat)
    ensures BeValue(MinimalBe(v)) == v
    decreases v
  {
    if v > 0 {
      var bs := MinimalBe(v);
      assert bs[..|bs| - 1] == MinimalBe(v / 256);
      BeValueOfMinimalBe(v / 256);
    }
  }

  lemma {:induction false} BeValuePositive(bs: seq<byte>)
    requires |bs| > 0 && bs[0] != 0
    ensures BeValue(bs) > 0
  {
    if |bs| > 1 {
      BeValuePositive(bs[..|bs| - 1]);
    }
  }

  /** A string without a leading zero byte is the minimal form of its value. */
  lemma {:induction false} MinimalBeOfBeValue(bs: seq<byte>)
    requires |bs| == 0 || bs[0] != 0
    ensures MinimalBe(BeValue(bs)) == bs
  {
    if |bs| > 0 {
      var init := bs[..|bs| - 1];
      var v := BeValue(bs);
      BeValuePositive(bs);
      DivModUnique(v, 256, BeValue(init), bs[|bs| - 1]);
      MinimalBeOfBeValue(init);
      assert bs == init + [bs[|bs| - 1]];
    }
  }
}

=== FILE: rlp_adapters.dfy ===
/** The `rlp::Encodable` / `rlp::Decodable` adapters of
    protocol/src/fixed_codec/primitive.rs: each composite value becomes an RLP
    list with a fixed field order, and is read back positionally. */
module RlpAdapters {
  import opened Wrappers
  import opened Octets
  import opened RlpTree
  import opened Types

  const HEX_DECODE_ERROR: string := "decode hex from string error"

  /** The errors a nested `at(i)?.as_val()?` read can surface. */
  predicate IsReadError(e: DecoderError) {
    || e == RlpExpectedToBeList
    || e == RlpIsTooShort
    || e == RlpExpectedToBeData
    || e == RlpIsTooBig
    || e == RlpInvalidIndirection
    || e == RlpInvalidLength
    || e == Custom(HEX_DECODE_ERROR)
  }

  // ---------------------------------------------------------------------
  // Hex

  /** A one-item list holding the digits without the "0x" prefix. */
  function HexToRlp(h: Hex): (r: Rlp)
    ensures r.List? && |r.items| == 1
  {
    List([EncodeText(TrimHex(h))])
  }

  /** Reads item 0 as a string and rebuilds the value by prefixing "0x";
      a string that is not a hex string is a `Custom` error. */
  function HexFromRlp(r: Rlp): (res: Result<Hex, DecoderError>)
    ensures res.Ok? <==>
              r.List? && |r.items| >= 1 && DecodeText(r.items[0]).Ok?
              && IsHexString("0x" + DecodeText(r.items[0]).value)
    ensures res.Ok? ==> r.items[0] == EncodeText(TrimHex(res.value))
    ensures res.Err? ==> IsReadError(res.error) && res.error != RlpInvalidLength
    ensures res == Err(Custom(HEX_DECODE_ERROR)) <==>
              r.List? && |r.items| >= 1 && DecodeText(r.items[0]).Ok?
              && !IsHexString("0x" + DecodeText(r.items[0]).value)
  {
    var item :- At(r, 0);
    var s :- DecodeText(item);
    match HexFromString("0x" + s)
    case Some(h) =>
      assert ("0x" + s)[2..] == s;
      Ok(h)
    case None => Err(Custom(HEX_DECODE_ERROR))
  }

  lemma HexRoundTrip(h: Hex)
    ensures HexToRlp(h) == List([EncodeText(h.text[2..])])
    ensures HexFromRlp(HexToRlp(h)) == Ok(h)
  {
    TextRoundTrip(TrimHex(h));
    assert "0x" + TrimHex(h) == h.text;
  }

  lemma DeadbeefIsHex()
    ensures IsHexString("0xdeadbeef")
  {
    assert AllHexDigits("f");
    assert AllHexDigits("ef");
    assert AllHexDigits("eef");
    assert AllHexDigits("beef");
    assert AllHexDigits("dbeef");
    assert AllHexDigits("adbeef");
    assert AllHexDigits("eadbeef");
    assert AllHexDigits("deadbeef");
    assert "0xdeadbeef"[2..] == "deadbeef";
  }

  /** The hex value "0xdeadbeef". */
  function Deadbeef(): (h: Hex)
    ensures h.text == "0xdeadbeef"
  {
    var text := "0xdeadbeef";
    DeadbeefIsHex();
    assert IsHexString(HexRepr(text).text);
    HexRepr(text)
  }

  /** "0xdeadbeef" travels as the string "deadbeef" and comes back with its
      prefix. */
  lemma HexExample()
    ensures HexToRlp(Deadbeef()) == List([EncodeText("deadbeef")])
    ensures HexFromRlp(List([EncodeText("deadbeef")])) == Ok(Deadbeef())
  {
    assert TrimHex(Deadbeef()) == "deadbeef";
    HexRoundTrip(Deadbeef());
  }

  // ---------------------------------------------------------------------
  // Hash and Address

  /** A one-item list holding the raw hash bytes. */
  function HashToRlp(h: Hash): (r: Rlp)
    ensures r.List? && |r.items| == 1
  {
    List([Data(h.bytes)])
  }

  /** Reads item 0 as bytes; a wrong length is `RlpInvalidLength`. */
  function HashFromRlp(r: Rlp): (res: Result<Hash, DecoderError>)
    ensures res.Ok? <==> r.List? && |r.items| >= 1 && r.items[0].Data? && |r.items[0].bytes| == HASH_LEN
    ensures res.Ok? ==> r.items[0] == Data(res.value.bytes)
    ensures res.Err? ==> IsReadError(res.error) && res.error != Custom(HEX_DECODE_ERROR)
    ensures res == Err(RlpInvalidLength) <==>
              r.List? && |r.items| >= 1 && r.items[0].Data? && |r.items[0].bytes| != HASH_LEN
  {
    var item :- At(r, 0);
    var b :- DataOf(item);
    match HashFromBytes(b)
    case Some(h) => Ok(h)
    case None => Err(RlpInvalidLength)
  }

  lemma HashRoundTrip(h: Hash)
    ensures HashFromRlp(HashToRlp(h)) == Ok(h)
  {
    assert HashRepr(h.bytes) == h;
  }

  /** A one-item list holding the raw address bytes. */
  function AddressToRlp(a: Address): (r: Rlp)
    ensures r.List? && |r.items| == 1
  {
    List([Data(a.bytes)])
  }

  /** Reads item 0 as bytes; a wrong length is `RlpInvalidLength`. */
  function AddressFromRlp(r: Rlp): (res: Result<Address, DecoderError>)
    ensures res.Ok? <==> r.List? && |r.items| >= 1 && r.items[0].Data? && |r.items[0].bytes| == ADDRESS_LEN
    ensures res.Ok? ==> r.items[0] == Data(res.value.bytes)
    ensures res.Err? ==> IsReadError(res.error) && res.error != Custom(HEX_DECODE_ERROR)
    ensures res == Err(RlpInvalidLength) <==>
              r.List? && |r.items| >= 1 && r.items[0].Data? && |r.items[0].bytes| != ADDRESS_LEN
  {
    var item :- At(r, 0);
    var b :- DataOf(item);
    match AddressFromBytes(b)
    case Some(a) => Ok(a)
    case None => Err(RlpInvalidLength)
  }

  lemma AddressRoundTrip(a: Address)
    ensures AddressFromRlp(AddressToRlp(a)) == Ok(a)
  {
    assert AddressRepr(a.bytes) == a;
  }

  // ---------------------------------------------------------------------
  // ValidatorExtend

  /** A four-item list: the key and the address as nested RLP values, then
      the two weights as integer leaves. */
  function ValidatorToRlp(v: ValidatorExtend): (r: Rlp)
    ensures r.List? && |r.items| == 4
  {
    List([HexToRlp(v.blsPubKey), AddressToRlp(v.address), EncodeUint(v.proposeWeight), EncodeUint(v.voteWeight)])
  }

  /** The four positional reads, shared by both guards below: item 0 and
      item 1 as nested RLP values, items 2 and 3 as `u32` leaves. */
  function ValidatorFieldsFromRlp(r: Rlp): (res: Result<ValidatorExtend, DecoderError>)
    ensures res.Ok? ==> r.List? && |r.items| >= 4
    ensures res.Ok? ==>
              && HexFromRlp(r.items[0]) == Ok(res.value.blsPubKey)
              && AddressFromRlp(r.items[1]) == Ok(res.value.address)
              && r.items[2] == EncodeUint(res.value.proposeWeight)
              && r.items[3] == EncodeUint(res.value.voteWeight)
    ensures res.Err? ==> IsReadError(res.error)
  {
    var i0 :- At(r, 0);
    var blsPubKey :- HexFromRlp(i0);
    var i1 :- At(r, 1);
    var address :- AddressFromRlp(i1);
    var i2 :- At(r, 2);
    var proposeWeight :- DecodeU32(i2);
    var i3 :- At(r, 3);
    var voteWeight :- DecodeU32(i3);
    Ok(ValidatorExtend(blsPubKey, address, proposeWeight, voteWeight))
  }

  lemma ValidatorFieldsRoundTrip(v: ValidatorExtend)
    ensures ValidatorFieldsFromRlp(ValidatorToRlp(v)) == Ok(v)
  {
    HexRoundTrip(v.blsPubKey);
    AddressRoundTrip(v.address);
    U32LeafRoundTrip(v.proposeWeight);
    U32LeafRoundTrip(v.voteWeight);
  }

  /** The decoder with its guard as the source writes it,
      `!is_list() && size() != 4`: it rejects only a data item whose payload
      is not four bytes long, and any list, whatever its length, goes on to
      the positional reads. */
  function ValidatorFromRlpAsWritten(r: Rlp): (res: Result<ValidatorExtend, DecoderError>)
    ensures res == Err(RlpIncorrectListLen) <==> r.Data? && |r.bytes| != 4
    ensures r.Data? ==> res.Err?
    ensures res.Ok? ==> r.List? && |r.items| >= 4
    ensures res.Ok? ==>
              && HexFromRlp(r.items[0]) == Ok(res.value.blsPubKey)
              && AddressFromRlp(r.items[1]) == Ok(res.value.address)
              && r.items[2] == EncodeUint(res.value.proposeWeight)
              && r.items[3] == EncodeUint(res.value.voteWeight)
    ensures res.Err? ==> res.error == RlpIncorrectListLen || IsReadError(res.error)
  {
    if !IsList(r) && Size(r) != 4 then Err(RlpIncorrectListLen)
    else ValidatorFieldsFromRlp(r)
  }

  /** As written, a list of at least four items decodes to `v` exactly when
      its first four items carry the fields of `v`. */
  lemma ValidatorDecodeIff(items: seq<Rlp>, v: ValidatorExtend)
    requires |items| >= 4
    ensures ValidatorFromRlpAsWritten(List(items)) == Ok(v) <==>
              && HexFromRlp(items[0]) == Ok(v.blsPubKey)
              && AddressFromRlp(items[1]) == Ok(v.address)
              && items[2] == EncodeUint(v.proposeWeight)
              && items[3] == EncodeUint(v.voteWeight)
  {
    U32LeafRoundTrip(v.proposeWeight);
    U32LeafRoundTrip(v.voteWeight);
  }

  /** As written, only the first four items are read: items after them are
      ignored. */
  lemma ValidatorAsWrittenReadsFirstFour(items: seq<Rlp>)
    requires |items| >= 4
    ensures ValidatorFromRlpAsWritten(List(items)) == ValidatorFromRlpAsWritten(List(items[..4]))
  {
    var short := items[..4];
    assert At(List(items), 0) == At(List(short), 0);
    assert At(List(items), 1) == At(List(short), 1);
    assert At(List(items), 2) == At(List(short), 2);
    assert At(List(items), 3) == At(List(short), 3);
  }

  /** As written, an encoding with extra items appended still decodes. */
  lemma ValidatorAsWrittenAcceptsExtraItems(v: ValidatorExtend, extra: seq<Rlp>)
    ensures ValidatorFromRlpAsWritten(List(ValidatorToRlp(v).items + extra)) == Ok(v)
  {
    var items := ValidatorToRlp(v).items + extra;
    assert items[..4] == ValidatorToRlp(v).items;
    ValidatorAsWrittenReadsFirstFour(items);
    ValidatorFieldsRoundTrip(v);
  }

  /** As written, an encoding cut short passes the guard and fails at the
      first missing position with `RlpIsTooShort`, not
      `RlpIncorrectListLen`. */
  lemma ValidatorAsWrittenTruncated(v: ValidatorExtend, k: nat)
    requires k < 4
    ensures ValidatorFromRlpAsWritten(List(ValidatorToRlp(v).items[..k])) == Err(RlpIsTooShort)
  {
    HexRoundTrip(v.blsPubKey);
    AddressRoundTrip(v.address);
    U32LeafRoundTrip(v.proposeWeight);
  }

  /** The decoder with the arity check the guard evidently means: anything
      but a list of exactly four items is `RlpIncorrectListLen`. */
  function ValidatorFromRlp(r: Rlp): (res: Result<ValidatorExtend, DecoderError>)
    ensures res == Err(RlpIncorrectListLen) <==> !(r.List? && |r.items| == 4)
    ensures res.Ok? ==> r.List? && |r.items| == 4
    ensures res.Ok? ==>
              && HexFromRlp(r.items[0]) == Ok(res.value.blsPubKey)
              && AddressFromRlp(r.items[1]) == Ok(res.value.address)
              && r.items[2] == EncodeUint(res.value.proposeWeight)
              && r.items[3] == EncodeUint(res.value.voteWeight)
  {
    if !IsList(r) || |r.items| != 4 then Err(RlpIncorrectListLen)
    else ValidatorFieldsFromRlp(r)
  }

  lemma ValidatorRoundTrip(v: ValidatorExtend)
    ensures ValidatorFromRlp(ValidatorToRlp(v)) == Ok(v)
  {
    ValidatorFieldsRoundTrip(v);
  }

  /** Where the guard as written and the corrected one agree: on a list of
      exactly four items both are the positional reads. */
  lemma ValidatorGuardsAgreeOnFourItems(r: Rlp)
    requires r.List? && |r.items| == 4
    ensures ValidatorFromRlp(r) == ValidatorFromRlpAsWritten(r)
  {
  }

  // ---------------------------------------------------------------------
  // Lists of validators

  function ValidatorsToRlp(vs: seq<ValidatorExtend>): (r: seq<Rlp>)
    ensures |r| == |vs|
    ensures forall i :: 0 <= i < |vs| ==> r[i] == ValidatorToRlp(vs[i])
  {
    if |vs| == 0 then [] else [ValidatorToRlp(vs[0])] + ValidatorsToRlp(vs[1..])
  }

  /** Decodes every item in order, with the validator decoder as the source
      writes it, and stops at the first failure. */
  function ValidatorsFromItems(items: seq<Rlp>): (res: Result<seq<ValidatorExtend>, DecoderError>)
    ensures res.Ok? ==> |res.value| == |items|
    ensures res.Ok? ==> forall i :: 0 <= i < |items| ==> ValidatorFromRlpAsWritten(items[i]) == Ok(res.value[i])
    ensures res.Err? ==>
              exists i :: 0 <= i < |items| && ValidatorFromRlpAsWritten(items[i]) == Err(res.error)
                          && forall j :: 0 <= j < i ==> ValidatorFromRlpAsWritten(items[j]).Ok?
    ensures (forall i :: 0 <= i < |items| ==> ValidatorFromRlpAsWritten(items[i]).Ok?) ==> res.Ok?
  {
    if |items| == 0 then Ok([])
    else
      var first :- ValidatorFromRlpAsWritten(items[0]);
      assert forall i :: 1 <= i < |items| ==> items[i] == items[1..][i - 1];
      match ValidatorsFromItems(items[1..])
      case Err(e) =>
        var i :| 0 <= i < |items[1..]| && ValidatorFromRlpAsWritten(items[1..][i]) == Err(e)
                 && forall j :: 0 <= j < i ==> ValidatorFromRlpAsWritten(items[1..][j]).Ok?;
        assert ValidatorFromRlpAsWritten(items[i + 1]) == Err(e);
        assert forall j :: 0 <= j < i + 1 ==> ValidatorFromRlpAsWritten(items[j]).Ok?;
        Err(e)
      case Ok(rest) =>
        Ok([first] + rest)
  }

  /** `as_list::<ValidatorExtend>`: a data item reads as the empty list, since
      the crate's item iterator ends at the first `at` that fails. */
  function ValidatorListFromRlp(r: Rlp): (res: Result<seq<ValidatorExtend>, DecoderError>)
    ensures r.Data? ==> res == Ok([])
    ensures r.List? && res.Ok? ==> |res.value| == |r.items|
    ensures r.List? && res.Ok? ==>
              forall i :: 0 <= i < |r.items| ==> ValidatorFromRlpAsWritten(r.items[i]) == Ok(res.value[i])
    ensures r.List? && (forall i :: 0 <= i < |r.items| ==> ValidatorFromRlpAsWritten(r.items[i]).Ok?) ==> res.Ok?
  {
    match r
    case Data(_) => Ok([])
    case List(items) => ValidatorsFromItems(items)
  }

  lemma {:induction false} ValidatorListRoundTrip(vs: seq<ValidatorExtend>)
    ensures ValidatorsFromItems(ValidatorsToRlp(vs)) == Ok(vs)
  {
    if |vs| > 0 {
      var items := ValidatorsToRlp(vs);
      assert items[1..] == ValidatorsToRlp(vs[1..]);
      ValidatorRoundTrip(vs[0]);
      ValidatorGuardsAgreeOnFourItems(items[0]);
      ValidatorListRoundTrip(vs[1..]);
      assert [vs[0]] + vs[1..] == vs;
    }
  }

  /** `as_list` keeps the guard as written: a nested validator with extra
      items appended is accepted. */
  lemma ValidatorListAcceptsExtraItems(v: ValidatorExtend, extra: seq<Rlp>)
    ensures ValidatorListFromRlp(List([List(ValidatorToRlp(v).items + extra)])) == Ok([v])
  {
    var item := List(ValidatorToRlp(v).items + extra);
    ValidatorAsWrittenAcceptsExtraItems(v, extra);
    assert ValidatorFromRlpAsWritten([item][0]) == Ok(v);
    assert [item][1..] == [];
    assert ValidatorsFromItems([item][1..]) == Ok([]);
    assert ValidatorsFromItems([item]) == Ok([v] + []);
    assert [v] + [] == [v];
    assert ValidatorListFromRlp(List([item])) == ValidatorsFromItems([item]);
  }

  // ---------------------------------------------------------------------
  // Metadata

  /** A thirteen-item list in declaration order; item 6 is a nested list
      of validator encodings. */
  function MetadataToRlp(m: Metadata): (r: Rlp)
    ensures r.List? && |r.items| == 13
  {
    List([
      HashToRlp(m.chainId),
      HexToRlp(m.commonRef),
      EncodeUint(m.timeoutGap),
      EncodeUint(m.cyclesLimit),
      EncodeUint(m.cyclesPrice),
      EncodeUint(m.interval),
      List(ValidatorsToRlp(m.verifierList)),
      EncodeUint(m.proposeRatio),
      EncodeUint(m.prevoteRatio),
      EncodeUint(m.precommitRatio),
      EncodeUint(m.brakeRatio),
      EncodeUint(m.txNumLimit),
      EncodeUint(m.maxTxSize)
    ])
  }

  /** `r.at(i)?.as_val::<u64>()?`: the positional read of one integer field. */
  function U64At(r: Rlp, i: nat): (res: Result<u64, DecoderError>)
    ensures res.Ok? ==> r.List? && i < |r.items| && r.items[i] == EncodeUint(res.value)
  {
    var item :- At(r, i);
    DecodeU64(item)
  }

  /** Items 0 and 1: the chain id and the common reference. */
  function MetadataHeadFromRlp(r: Rlp): (res: Result<(Hash, Hex), DecoderError>)
    ensures res.Ok? ==>
      && r.List? && |r.items| >= 2
      && HashFromRlp(r.items[0]) == Ok(res.value.0)
      && HexFromRlp(r.items[1]) == Ok(res.value.1)
  {
    var i0 :- At(r, 0);
    var chainId :- HashFromRlp(i0);
    var i1 :- At(r, 1);
    var commonRef :- HexFromRlp(i1);
    Ok((chainId, commonRef))
  }

  /** Items 2..5: timeout gap, cycles limit, cycles price, interval. */
  function MetadataTimingFromRlp(r: Rlp): (res: Result<(u64, u64, u64, u64), DecoderError>)
    ensures res.Ok? ==>
      && r.List? && |r.items| >= 6
      && DecodeU64(r.items[2]) == Ok(res.value.0)
      && DecodeU64(r.items[3]) == Ok(res.value.1)
      && DecodeU64(r.items[4]) == Ok(res.value.2)
      && DecodeU64(r.items[5]) == Ok(res.value.3)
  {
    var timeoutGap :- U64At(r, 2);
    var cyclesLimit :- U64At(r, 3);
    var cyclesPrice :- U64At(r, 4);
    var interval :- U64At(r, 5);
    U64LeafRoundTrip(timeoutGap);
    U64LeafRoundTrip(cyclesLimit);
    U64LeafRoundTrip(cyclesPrice);
    U64LeafRoundTrip(interval);
    Ok((timeoutGap, cyclesLimit, cyclesPrice, interval))
  }

  /** Items 7..12: the four round ratios, the transaction count limit and
      the transaction size limit. */
  function MetadataRatiosFromRlp(r: Rlp): (res: Result<(u64, u64, u64, u64, u64, u64), DecoderError>)
    ensures res.Ok? ==>
      && r.List? && |r.items| >= 13
      && DecodeU64(r.items[7]) == Ok(res.value.0)
      && DecodeU64(r.items[8]) == Ok(res.value.1)
      && DecodeU64(r.items[9]) == Ok(res.value.2)
      && DecodeU64(r.items[10]) == Ok(res.value.3)
      && DecodeU64(r.items[11]) == Ok(res.value.4)
      && DecodeU64(r.items[12]) == Ok(res.value.5)
  {
    var proposeRatio :- U64At(r, 7);
    var prevoteRatio :- U64At(r, 8);
    var precommitRatio :- U64At(r, 9);
    var brakeRatio :- U64At(r, 10);
    var txNumLimit :- U64At(r, 11);
    var maxTxSize :- U64At(r, 12);
    U64LeafRoundTrip(proposeRatio);
    U64LeafRoundTrip(prevoteRatio);
    U64LeafRoundTrip(precommitRatio);
    U64LeafRoundTrip(brakeRatio);
    U64LeafRoundTrip(txNumLimit);
    U64LeafRoundTrip(maxTxSize);
    Ok((proposeRatio, prevoteRatio, precommitRatio, brakeRatio, txNumLimit, maxTxSize))
  }

  /** Positional reads of items 0..12 in index order, failing at the first
      one that is missing or malformed; there is no arity check, so extra
      items are never looked at. The reads are grouped into stages only to
      keep each proof small; the order of reads is the source's. */
  function MetadataFromRlp(r: Rlp): (res: Result<Metadata, DecoderError>)
    ensures res.Ok? ==> r.List? && MetadataFieldsAt(r.items, res.value)
    ensures r.Data? ==> res == Err(RlpExpectedToBeList)
  {
    var head :- MetadataHeadFromRlp(r);
    var timing :- MetadataTimingFromRlp(r);
    var i6 :- At(r, 6);
    var verifierList :- ValidatorListFromRlp(i6);
    var ratios :- MetadataRatiosFromRlp(r);
    Ok(Metadata(
      head.0, head.1, timing.0, timing.1, timing.2, timing.3, verifierList,
      ratios.0, ratios.1, ratios.2, ratios.3, ratios.4, ratios.5))
  }

  /** A failed decode reports one of the errors of the reads it makes:
      the positional reads, the nested Hash, Hex and integer decodes, and a
      nested validator's arity guard. */
  lemma MetadataErrorKinds(r: Rlp)
    requires MetadataFromRlp(r).Err?
    ensures IsReadError(MetadataFromRlp(r).error) || MetadataFromRlp(r).error == RlpIncorrectListLen
  {
  }

  /** The thirteen items, in the order the source appends them. */
  predicate MetadataLaidOut(items: seq<Rlp>, m: Metadata) {
    && |items| == 13
    && items[0] == HashToRlp(m.chainId)
    && items[1] == HexToRlp(m.commonRef)
    && items[2] == EncodeUint(m.timeoutGap)
    && items[3] == EncodeUint(m.cyclesLimit)
    && items[4] == EncodeUint(m.cyclesPrice)
    && items[5] == EncodeUint(m.interval)
    && items[6] == List(ValidatorsToRlp(m.verifierList))
    && items[7] == EncodeUint(m.proposeRatio)
    && items[8] == EncodeUint(m.prevoteRatio)
    && items[9] == EncodeUint(m.precommitRatio)
    && items[10] == EncodeUint(m.brakeRatio)
    && items[11] == EncodeUint(m.txNumLimit)
    && items[12] == EncodeUint(m.maxTxSize)
  }

  /** The encoding lays the fields out in declaration order, item 6 being
      the nested list of validator encodings. */
  lemma MetadataLayout(m: Metadata)
    ensures MetadataLaidOut(MetadataToRlp(m).items, m)
  {
    MetadataLayoutComposite(m);
    MetadataLayoutLeading(m);
    MetadataLayoutMiddle(m);
    MetadataLayoutTrailing(m);
  }

  lemma MetadataLayoutComposite(m: Metadata)
    ensures |MetadataToRlp(m).items| == 13
    ensures MetadataToRlp(m).items[0] == HashToRlp(m.chainId)
    ensures MetadataToRlp(m).items[1] == HexToRlp(m.commonRef)
    ensures MetadataToRlp(m).items[6] == List(ValidatorsToRlp(m.verifierList))
  {
  }

  lemma MetadataLayoutLeading(m: Metadata)
    ensures MetadataToRlp(m).items[2] == EncodeUint(m.timeoutGap)
    ensures MetadataToRlp(m).items[3] == EncodeUint(m.cyclesLimit)
  {
  }

  lemma MetadataLayoutMiddle(m: Metadata)
    ensures MetadataToRlp(m).items[4] == EncodeUint(m.cyclesPrice)
    ensures MetadataToRlp(m).items[5] == EncodeUint(m.interval)
  {
  }

  lemma MetadataLayoutTrailing(m: Metadata)
    ensures MetadataToRlp(m).items[7] == EncodeUint(m.proposeRatio)
    ensures MetadataToRlp(m).items[8] == EncodeUint(m.prevoteRatio)
    ensures MetadataToRlp(m).items[9] == EncodeUint(m.precommitRatio)
    ensures MetadataToRlp(m).items[10] == EncodeUint(m.brakeRatio)
    ensures MetadataToRlp(m).items[11] == EncodeUint(m.txNumLimit)
    ensures MetadataToRlp(m).items[12] == EncodeUint(m.maxTxSize)
  {
  }

  /** Item i of `items` reads back, with its own decoder, as field i of
      `m`. */
  predicate MetadataFieldsAt(items: seq<Rlp>, m: Metadata) {
    && |items| >= 13
    && HashFromRlp(items[0]) == Ok(m.chainId)
    && HexFromRlp(items[1]) == Ok(m.commonRef)
    && DecodeU64(items[2]) == Ok(m.timeoutGap)
    && DecodeU64(items[3]) == Ok(m.cyclesLimit)
    && DecodeU64(items[4]) == Ok(m.cyclesPrice)
    && DecodeU64(items[5]) == Ok(m.interval)
    && ValidatorListFromRlp(items[6]) == Ok(m.verifierList)
    && DecodeU64(items[7]) == Ok(m.proposeRatio)
    && DecodeU64(items[8]) == Ok(m.prevoteRatio)
    && DecodeU64(items[9]) == Ok(m.precommitRatio)
    && DecodeU64(items[10]) == Ok(m.brakeRatio)
    && DecodeU64(items[11]) == Ok(m.txNumLimit)
    && DecodeU64(items[12]) == Ok(m.maxTxSize)
  }

  /** Each field sits at its index and reads back with its own decoder. */
  lemma MetadataFieldPositions(items: seq<Rlp>, m: Metadata)
    requires MetadataLaidOut(items, m)
    ensures MetadataFieldsAt(items, m)
  {
    HashRoundTrip(m.chainId);
    HexRoundTrip(m.commonRef);
    ValidatorListRoundTrip(m.verifierList);
    U64ItemRoundTrip(items, 2, m.timeoutGap);
    U64ItemRoundTrip(items, 3, m.cyclesLimit);
    U64ItemRoundTrip(items, 4, m.cyclesPrice);
    U64ItemRoundTrip(items, 5, m.interval);
    U64ItemRoundTrip(items, 7, m.proposeRatio);
    U64ItemRoundTrip(items, 8, m.prevoteRatio);
    U64ItemRoundTrip(items, 9, m.precommitRatio);
    U64ItemRoundTrip(items, 10, m.brakeRatio);
    U64ItemRoundTrip(items, 11, m.txNumLimit);
    U64ItemRoundTrip(items, 12, m.maxTxSize);
  }

  lemma U64ItemRoundTrip(items: seq<Rlp>, i: nat, v: u64)
    requires i < |items| && items[i] == EncodeUint(v)
    ensures DecodeU64(items[i]) == Ok(v)
  {
    U64LeafRoundTrip(v);
  }

  /** A list whose items carry the fields in order decodes to them. */
  lemma MetadataFromFields(items: seq<Rlp>, m: Metadata)
    requires MetadataFieldsAt(items, m)
    ensures MetadataFromRlp(List(items)) == Ok(m)
  {
  }

  /** A list decodes to `m` exactly when its items carry the fields of `m`
      at their indices. */
  lemma MetadataDecodeIff(items: seq<Rlp>, m: Metadata)
    ensures MetadataFromRlp(List(items)) == Ok(m) <==> MetadataFieldsAt(items, m)
  {
    if MetadataFieldsAt(items, m) {
      MetadataFromFields(items, m);
    }
  }

  lemma MetadataRoundTrip(m: Metadata)
    ensures MetadataFromRlp(MetadataToRlp(m)) == Ok(m)
  {
    var items := MetadataToRlp(m).items;
    MetadataLayout(m);
    MetadataFieldPositions(items, m);
    MetadataFromFields(items, m);
  }

  /** Metadata decoding sees its input only through `at(0)` .. `at(12)`. */
  lemma MetadataSameReads(r1: Rlp, r2: Rlp)
    requires forall j: nat :: j < 13 ==> At(r1, j) == At(r2, j)
    ensures MetadataFromRlp(r1) == MetadataFromRlp(r2)
  {
    assert At(r1, 0) == At(r2, 0) && At(r1, 1) == At(r2, 1);
    assert MetadataHeadFromRlp(r1) == MetadataHeadFromRlp(r2);
    MetadataTimingSameReads(r1, r2);
    assert At(r1, 6) == At(r2, 6);
    MetadataRatiosSameReads(r1, r2);
  }

  lemma MetadataTimingSameReads(r1: Rlp, r2: Rlp)
    requires forall j: nat :: 2 <= j < 6 ==> At(r1, j) == At(r2, j)
    ensures MetadataTimingFromRlp(r1) == MetadataTimingFromRlp(r2)
  {
    assert U64At(r1, 2) == U64At(r2, 2) && U64At(r1, 3) == U64At(r2, 3);
    assert U64At(r1, 4) == U64At(r2, 4) && U64At(r1, 5) == U64At(r2, 5);
  }

  lemma MetadataRatiosSameReads(r1: Rlp, r2: Rlp)
    requires forall j: nat :: 7 <= j < 13 ==> At(r1, j) == At(r2, j)
    ensures MetadataRatiosFromRlp(r1) == MetadataRatiosFromRlp(r2)
  {
    assert U64At(r1, 7) == U64At(r2, 7) && U64At(r1, 8) == U64At(r2, 8);
    assert U64At(r1, 9) == U64At(r2, 9) && U64At(r1, 10) == U64At(r2, 10);
    assert U64At(r1, 11) == U64At(r2, 11) && U64At(r1, 12) == U64At(r2, 12);
  }

  /** Only the first thirteen items are read. */
  lemma MetadataReadsFirstThirteen(items: seq<Rlp>)
    requires |items| >= 13
    ensures MetadataFromRlp(List(items)) == MetadataFromRlp(List(items[..13]))
  {
    var short := items[..13];
    forall j: nat | j < 13
      ensures At(List(items), j) == At(List(short), j)
    {
    }
    MetadataSameReads(List(items), List(short));
  }

  /** A prefix of fewer than thirteen items of a decodable list fails at
      the first missing index with `RlpIsTooShort`. */
  lemma MetadataPrefixTooShort(items: seq<Rlp>, m: Metadata, k: nat)
    requires MetadataFieldsAt(items, m) && k < 13
    ensures MetadataFromRlp(List(items[..k])) == Err(RlpIsTooShort)
  {
    if k < 7 {
      MetadataShortPrefix(items, m, k);
    } else {
      MetadataLongPrefix(items, m, k);
    }
  }

  lemma MetadataShortPrefix(items: seq<Rlp>, m: Metadata, k: nat)
    requires MetadataFieldsAt(items, m) && k < 7
    ensures MetadataFromRlp(List(items[..k])) == Err(RlpIsTooShort)
  {
    var p := items[..k];
    assert forall j :: 0 <= j < k ==> p[j] == items[j];
  }

  lemma MetadataLongPrefix(items: seq<Rlp>, m: Metadata, k: nat)
    requires MetadataFieldsAt(items, m) && 7 <= k < 13
    ensures MetadataFromRlp(List(items[..k])) == Err(RlpIsTooShort)
  {
    var p := items[..k];
    assert forall j :: 0 <= j < k ==> p[j] == items[j];
  }

  /** An encoding cut short fails at the first missing index with
      `RlpIsTooShort`. */
  lemma MetadataTruncated(m: Metadata, k: nat)
    requires k < 13
    ensures MetadataFromRlp(List(MetadataToRlp(m).items[..k])) == Err(RlpIsTooShort)
  {
    var items := MetadataToRlp(m).items;
    MetadataLayout(m);
    MetadataFieldPositions(items, m);
    MetadataPrefixTooShort(items, m, k);
  }
}

=== FILE: rlp_tree.dfy ===
/** The RLP engine the adapters call, as a tree: an RLP item is either a byte
    string or a list of items (Appendix B of the Ethereum Yellow Paper). The
    byte-level prefix framing is not modelled; only the reads the adapters
    use (`is_list`, `size`, `at`, `data`, and `as_val` for integers and
    strings) and the leaf forms they append (raw byte strings, minimal
    big-endian integers and UTF-8 strings). */
module RlpTree {
  import opened Wrappers
  import opened Octets
  import Utf8

  datatype Rlp = Data(bytes: seq<byte>) | List(items: seq<Rlp>)

  /** `rlp::DecoderError`, restricted to the variants reachable here. */
  datatype DecoderError =
    | RlpIsTooShort
    | RlpIsTooBig
    | RlpExpectedToBeList
    | RlpExpectedToBeData
    | RlpIncorrectListLen
    | RlpInvalidLength
    | RlpInvalidIndirection
    | Custom(message: string)

  /** `Rlp::is_list`. */
  predicate IsList(r: Rlp): (b: bool)
    ensures b <==> !r.Data?
  {
    r.List?
  }

  /** `Rlp::size`: the payload length of a data item, zero for a list. */
  function Size(r: Rlp): (n: nat)
    ensures r.Data? ==> n == |r.bytes|
    ensures r.List? ==> n == 0
  {
    match r
    case Data(b) => |b|
    case List(_) => 0
  }

  /** `Rlp::at`: item i of a list. */
  function At(r: Rlp, i: nat): (res: Result<Rlp, DecoderError>)
    ensures res.Ok? <==> r.List? && i < |r.items|
    ensures res.Ok? ==> res.value == r.items[i] && res.value < r
    ensures res.Err? ==> res.error == (if r.List? then RlpIsTooShort else RlpExpectedToBeList)
  {
    match r
    case Data(_) => Err(RlpExpectedToBeList)
    case List(items) => if i < |items| then Ok(items[i]) else Err(RlpIsTooShort)
  }

  /** `Rlp::data` on a data item: its payload. */
  function DataOf(r: Rlp): (res: Result<seq<byte>, DecoderError>)
    ensures res.Ok? <==> r.Data?
    ensures res.Ok? ==> r == Data(res.value)
    ensures res.Err? ==> res.error == RlpExpectedToBeData
  {
    match r
    case Data(b) => Ok(b)
    case List(_) => Err(RlpExpectedToBeData)
  }

  // ---------------------------------------------------------------------
  // Unsigned integers: minimal big-endian leaves

  function EncodeUint(v: nat): (r: Rlp)
    ensures r.Data? && (|r.bytes| == 0 || r.bytes[0] != 0)
    ensures BeValue(r.bytes) == v
  {
    MinimalBeNoLeadingZero(v);
    BeValueOfMinimalBe(v);
    Data(MinimalBe(v))
  }

  /** `as_val` for an unsigned type of `width` bytes: a list is
      `RlpExpectedToBeData`, more than `width` bytes is `RlpIsTooBig`, a
      leading zero byte is `RlpInvalidIndirection`. Whatever is accepted is
      the canonical leaf of the value it yields. */
  function DecodeUint(r: Rlp, width: nat): (res: Result<nat, DecoderError>)
    ensures res.Ok? ==> res.value < Pow256(width) && r == EncodeUint(res.value)
    ensures res.Err? ==> res.error == RlpExpectedToBeData || res.error == RlpIsTooBig || res.error == RlpInvalidIndirection
  {
    match r
    case List(_) => Err(RlpExpectedToBeData)
    case Data(b) =>
      if |b| > width then Err(RlpIsTooBig)
      else if |b| > 0 && b[0] == 0 then Err(RlpInvalidIndirection)
      else
        MinimalBeOfBeValue(b);
        MinimalBeFits(BeValue(b), width);
        Ok(BeValue(b))
  }

  /** An integer leaf decodes to `v` exactly when it is the canonical leaf of
      `v` and `v` fits the width. */
  lemma UintDecodeIff(r: Rlp, width: nat, v: nat)
    ensures DecodeUint(r, width) == Ok(v) <==> r == EncodeUint(v) && v < Pow256(width)
  {
    if r == EncodeUint(v) && v < Pow256(width) {
      MinimalBeFits(v, width);
      MinimalBeNoLeadingZero(v);
      BeValueOfMinimalBe(v);
    }
  }

  function DecodeU32(r: Rlp): (res: Result<u32, DecoderError>)
    ensures res.Ok? ==> r == EncodeUint(res.value)
    ensures res.Err? ==> res.error == RlpExpectedToBeData || res.error == RlpIsTooBig || res.error == RlpInvalidIndirection
  {
    Pow256Widths();
    var v :- DecodeUint(r, 4);
    Ok(v)
  }

  function DecodeU64(r: Rlp): (res: Result<u64, DecoderError>)
    ensures res.Ok? ==> r == EncodeUint(res.value)
    ensures res.Err? ==> res.error == RlpExpectedToBeData || res.error == RlpIsTooBig || res.error == RlpInvalidIndirection
  {
    Pow256Widths();
    var v :- DecodeUint(r, 8);
    Ok(v)
  }

  lemma U32LeafRoundTrip(v: u32)
    ensures DecodeU32(EncodeUint(v)) == Ok(v)
  {
    Pow256Widths();
    UintDecodeIff(EncodeUint(v), 4, v);
  }

  lemma U64LeafRoundTrip(v: u64)
    ensures DecodeU64(EncodeUint(v)) == Ok(v)
  {
    Pow256Widths();
    UintDecodeIff(EncodeUint(v), 8, v);
  }

  // ---------------------------------------------------------------------
  // Strings: UTF-8 leaves

  function EncodeText(s: string): (r: Rlp)
    ensures r.Data? && Utf8.IsUtf8(r.bytes)
  {
    Data(Utf8.Encode(s))
  }

  /** `as_val::<String>`: the payload of a data item read as UTF-8; a list
      or ill-formed UTF-8 is `RlpExpectedToBeData`. */
  function DecodeText(r: Rlp): (res: Result<string, DecoderError>)
    ensures res.Ok? <==> r.Data? && Utf8.IsUtf8(r.bytes)
    ensures res.Ok? ==> r == EncodeText(res.value)
    ensures res.Err? ==> res.error == RlpExpectedToBeData
  {
    match r
    case List(_) => Err(RlpExpectedToBeData)
    case Data(b) =>
      Utf8.DecodeOkIffUtf8(b);
      match Utf8.Decode(b)
      case Ok(s) =>
        Utf8.EncodeOfDecode(b);
        Ok(s)
      case Err(_) => Err(RlpExpectedToBeData)
  }

  lemma TextRoundTrip(s: string)
    ensures DecodeText(EncodeText(s)) == Ok(s)
  {
    Utf8.DecodeOfEncode(s);
  }
}

=== FILE: types.dfy ===
/** The domain values the codec observes. `Hash`, `Address` and `Hex` can
    only be built through a validating constructor in the source
    (`from_bytes`, `from_string`), so here each is a subset type of a plain
    representation datatype. Their definitions live in crate::types, which is
    not part of this model: the validity rules below are the ones the codec
    relies on (a 32-byte hash, a 20-byte address, a "0x"-prefixed hex
    string). */
module Types {
  import opened Wrappers
  import opened Octets

  const HASH_LEN: nat := 32
  const ADDRESS_LEN: nat := 20

  datatype HashRepr = HashRepr(bytes: seq<byte>)
  type Hash = h: HashRepr | |h.bytes| == HASH_LEN witness HashRepr(seq(32, _ => 0))

  datatype AddressRepr = AddressRepr(bytes: seq<byte>)
  type Address = a: AddressRepr | |a.bytes| == ADDRESS_LEN witness AddressRepr(seq(20, _ => 0))

  predicate IsHexDigit(c: char) {
    '0' <= c <= '9' || 'a' <= c <= 'f' || 'A' <= c <= 'F'
  }

  predicate AllHexDigits(s: string) {
    |s| == 0 || (IsHexDigit(s[0]) && AllHexDigits(s[1..]))
  }

  /** A hex string: "0x" followed by hex digits. */
  predicate IsHexString(s: string) {
    |s| >= 2 && s[0] == '0' && s[1] == 'x' && AllHexDigits(s[2..])
  }

  datatype HexRepr = HexRepr(text: string)
  type Hex = h: HexRepr | IsHexString(h.text) witness HexRepr("0x")

  /** The field types are assumed: the struct is declared in crate::types,
      and the decoder's reads do not name them. */
  datatype ValidatorExtend = ValidatorExtend(
    blsPubKey: Hex,
    address: Address,
    proposeWeight: u32,
    voteWeight: u32)

  datatype Metadata = Metadata(
    chainId: Hash,
    commonRef: Hex,
    timeoutGap: u64,
    cyclesLimit: u64,
    cyclesPrice: u64,
    interval: u64,
    verifierList: seq<ValidatorExtend>,
    proposeRatio: u64,
    prevoteRatio: u64,
    precommitRatio: u64,
    brakeRatio: u64,
    txNumLimit: u64,
    maxTxSize: u64)

  /** `Hash::from_bytes`. */
  function HashFromBytes(b: seq<byte>): (r: Option<Hash>)
    ensures r.Some? <==> |b| == HASH_LEN
    ensures r.Some? ==> r.value.bytes == b
  {
    if |b| == HASH_LEN then Some(HashRepr(b)) else None
  }

  /** `Address::from_bytes`. */
  function AddressFromBytes(b: seq<byte>): (r: Option<Address>)
    ensures r.Some? <==> |b| == ADDRESS_LEN
    ensures r.Some? ==> r.value.bytes == b
  {
    if |b| == ADDRESS_LEN then Some(AddressRepr(b)) else None
  }

  /** `Hex::from_string`. */
  function HexFromString(s: string): (r: Option<Hex>)
    ensures r.Some? <==> IsHexString(s)
    ensures r.Some? ==> r.value.text == s
  {
    if IsHexString(s) then Some(HexRepr(s)) else None
  }

  /** `Hex::as_string_trim0x`: the digits after the "0x" prefix. */
  function TrimHex(h: Hex): (t: string)
    ensures "0x" + t == h.text
  {
    h.text[2..]
  }
}

=== FILE: utf8.dfy ===
/** UTF-8 as defined in section 3 of RFC 3629: a Rust `String` is a sequence
    of Unicode scalar values (Dafny's `char`), its bytes are their UTF-8
    encodings, and `String::from_utf8` accepts exactly the well-formed byte
    strings (no overlong forms, no surrogates, nothing above U+10FFFF). */
module Utf8 {
  import opened Wrappers
  import opened Octets

  /** Rust's `Utf8Error`, reduced to `valid_up_to`: the offset of the first
      byte of the first ill-formed sequence. */
  datatype Utf8Error = Utf8Error(validUpTo: nat)

  predicate IsContinuation(b: byte) {
    0x80 <= b < 0xC0
  }

  /** The UTF-8 encoding of one scalar value (section 3 of RFC 3629). */
  function EncodeChar(c: char): (r: seq<byte>)
    ensures 1 <= |r| <= 4
  {
    var v := c as int;
    if v < 0x80 then [v]
    else if v < 0x800 then [0xC0 + v / 64, 0x80 + v % 64]
    else if v < 0x1_0000 then [0xE0 + v / 4096, 0x80 + (v / 64) % 64, 0x80 + v % 64]
    else [0xF0 + v / 0x4_0000, 0x80 + (v / 4096) % 64, 0x80 + (v / 64) % 64, 0x80 + v % 64]
  }

  /** The UTF-8 encoding of a string: the concatenation of its characters'. */
  function Encode(s: string): (r: seq<byte>)
    ensures |r| >= |s|
  {
    if |s| == 0 then [] else EncodeChar(s[0]) + Encode(s[1..])
  }

  /** The byte strings that are the UTF-8 form of some string. */
  ghost predicate IsUtf8(bs: seq<byte>) {
    exists s: string :: Encode(s) == bs
  }

  /** Decodes the first character of `bs`, returning it with the number of
      bytes it occupies, or None when the leading sequence is ill-formed. */
  function DecodeChar(bs: seq<byte>): (r: Option<(char, nat)>)
    requires |bs| > 0
    ensures r.Some? ==> 1 <= r.value.1 <= 4 && r.value.1 <= |bs|
  {
    var b0: int := bs[0];
    if b0 < 0x80 then Some((b0 as char, 1))
    else if 0xC0 <= b0 < 0xE0 then
      if |bs| >= 2 && IsContinuation(bs[1]) then
        var v := (b0 - 0xC0) * 64 + (bs[1] as int - 0x80);
        if 0x80 <= v then Some((v as char, 2)) else None
      else None
    else if 0xE0 <= b0 < 0xF0 then
      if |bs| >= 3 && IsContinuation(bs[1]) && IsContinuation(bs[2]) then
        var v := (b0 - 0xE0) * 4096 + (bs[1] as int - 0x80) * 64 + (bs[2] as int - 0x80);
        if 0x800 <= v && !(0xD800 <= v < 0xE000) then Some((v as char, 3)) else None
      else None
    else if 0xF0 <= b0 < 0xF8 then
      if |bs| >= 4 && IsContinuation(bs[1]) && IsContinuation(bs[2]) && IsContinuation(bs[3]) then
        var v := (b0 - 0xF0) * 0x4_0000 + (bs[1] as int - 0x80) * 4096 + (bs[2] as int - 0x80) * 64 + (bs[3] as int - 0x80);
        if 0x1_0000 <= v < 0x11_0000 then Some((v as char, 4)) else None
      else None
    else None
  }

  /** `String::from_utf8`: the decoded string, or the offset where decoding
      stopped. */
  function Decode(bs: seq<byte>): (r: Result<string, Utf8Error>)
    ensures r.Err? ==> r.error.validUpTo < |bs|
    decreases |bs|
  {
    if |bs| == 0 then Ok([])
    else
      match DecodeChar(bs)
      case None => Err(Utf8Error(0))
      case Some((c, n)) =>
        match Decode(bs[n..])
        case Ok(rest) => Ok([c] + rest)
        case Err(e) => Err(Utf8Error(n + e.validUpTo))
  }

  // ---------------------------------------------------------------------
  // One character

  lemma DecodeTwoByteChar(c: char, rest: seq<byte>)
    requires 0x80 <= c as int < 0x800
    ensures DecodeChar(EncodeChar(c) + rest) == Some((c, 2))
  {
    var v := c as int;
    var bs := EncodeChar(c) + rest;
    assert bs[0] == 0xC0 + v / 64 && bs[1] == 0x80 + v % 64;
    assert (v / 64) * 64 + v % 64 == v;
  }

  lemma DecodeThreeByteChar(c: char, rest: seq<byte>)
    requires 0x800 <= c as int < 0x1_0000
    ensures DecodeChar(EncodeChar(c) + rest) == Some((c, 3))
  {
    var v := c as int;
    var bs := EncodeChar(c) + rest;
    assert bs[0] == 0xE0 + v / 4096 && bs[1] == 0x80 + (v / 64) % 64 && bs[2] == 0x80 + v % 64;
    DivDiv(v, 64, 64);
    assert (v / 64) / 64 == v / 4096;
    assert (v / 64) == (v / 4096) * 64 + (v / 64) % 64;
    assert v == (v / 64) * 64 + v % 64;
  }

  lemma DecodeFourByteChar(c: char, rest: seq<byte>)
    requires 0x1_0000 <= c as int
    ensures DecodeChar(EncodeChar(c) + rest) == Some((c, 4))
  {
    var v := c as int;
    var bs := EncodeChar(c) + rest;
    assert bs[0] == 0xF0 + v / 0x4_0000 && bs[1] == 0x80 + (v / 4096) % 64;
    assert bs[2] == 0x80 + (v / 64) % 64 && bs[3] == 0x80 + v % 64;
    DivDiv(v, 64, 64);
    DivDiv(v, 4096, 64);
    assert v / 4096 == (v / 0x4_0000) * 64 + (v / 4096) % 64;
    assert v / 64 == (v / 4096) * 64 + (v / 64) % 64;
    assert v == (v / 64) * 64 + v % 64;
  }

  /** Decoding the encoding of a character yields that character, whatever
      follows it. */
  lemma DecodeCharOfEncodeChar(c: char, rest: seq<byte>)
    ensures DecodeChar(EncodeChar(c) + rest) == Some((c, |EncodeChar(c)|))
  {
    var v := c as int;
    if v < 0x80 {
    } else if v < 0x800 {
      DecodeTwoByteChar(c, rest);
    } else if v < 0x1_0000 {
      DecodeThreeByteChar(c, rest);
    } else {
      DecodeFourByteChar(c, rest);
    }
  }

  /** Whatever DecodeChar accepts is exactly the encoding of what it returns. */
  lemma DecodeCharSound(bs: seq<byte>)
    requires |bs| > 0 && DecodeChar(bs).Some?
    ensures bs[..DecodeChar(bs).value.1] == EncodeChar(DecodeChar(bs).value.0)
  {
    var b0: int := bs[0];
    if 0xC0 <= b0 < 0xE0 {
      TwoByteSound(bs);
    } else if 0xE0 <= b0 < 0xF0 {
      ThreeByteSound(bs);
    } else if 0xF0 <= b0 < 0xF8 {
      FourByteSound(bs);
    }
  }

  lemma TwoByteSound(bs: seq<byte>)
    requires |bs| >= 2 && 0xC0 <= bs[0] < 0xE0 && DecodeChar(bs).Some?
    ensures bs[..2] == EncodeChar(DecodeChar(bs).value.0)
  {
    var b0: int := bs[0];
    var v := (b0 - 0xC0) * 64 + (bs[1] as int - 0x80);
    DivModUnique(v, 64, b0 - 0xC0, bs[1] as int - 0x80);
  }

  lemma ThreeByteSound(bs: seq<byte>)
    requires |bs| >= 3 && 0xE0 <= bs[0] < 0xF0 && DecodeChar(bs).Some?
    ensures bs[..3] == EncodeChar(DecodeChar(bs).value.0)
  {
    var b0: int := bs[0];
    var v := (b0 - 0xE0) * 4096 + (bs[1] as int - 0x80) * 64 + (bs[2] as int - 0x80);
    var w := (b0 - 0xE0) * 64 + (bs[1] as int - 0x80);
    DivModUnique(v, 64, w, bs[2] as int - 0x80);
    DivModUnique(w, 64, b0 - 0xE0, bs[1] as int - 0x80);
    DivModUnique(v, 4096, b0 - 0xE0, (bs[1] as int - 0x80) * 64 + (bs[2] as int - 0x80));
  }

  lemma FourByteSound(bs: seq<byte>)
    requires |bs| >= 4 && 0xF0 <= bs[0] < 0xF8 && DecodeChar(bs).Some?
    ensures bs[..4] == EncodeChar(DecodeChar(bs).value.0)
  {
    var b0: int := bs[0];
    var v := (b0 - 0xF0) * 0x4_0000 + (bs[1] as int - 0x80) * 4096 + (bs[2] as int - 0x80) * 64 + (bs[3] as int - 0x80);
    var w := (b0 - 0xF0) * 4096 + (bs[1] as int - 0x80) * 64 + (bs[2] as int - 0x80);
    var x := (b0 - 0xF0) * 64 + (bs[1] as int - 0x80);
    DivModUnique(v, 64, w, bs[3] as int - 0x80);
    DivModUnique(w, 64, x, bs[2] as int - 0x80);
    DivModUnique(v, 4096, x, (bs[2] as int - 0x80) * 64 + (bs[3] as int - 0x80));
    DivModUnique(x, 64, b0 - 0xF0, bs[1] as int - 0x80);
    DivModUnique(v, 0x4_0000, b0 - 0xF0, (bs[1] as int - 0x80) * 4096 + (bs[2] as int - 0x80) * 64 + (bs[3] as int - 0x80));
  }

  /** DecodeChar looks only at the bytes of the character it decodes. */
  lemma DecodeCharPrefix(bs: seq<byte>, k: nat)
    requires |bs| > 0 && DecodeChar(bs).Some?
    requires DecodeChar(bs).value.1 <= k <= |bs|
    ensures DecodeChar(bs[..k]) == DecodeChar(bs)
  {
  }

  /** A character decoded from a prefix is the character the whole input
      starts with. */
  lemma DecodeCharExtend(bs: seq<byte>, k: nat)
    requires 0 < k <= |bs| && DecodeChar(bs[..k]).Some?
    ensures DecodeChar(bs) == DecodeChar(bs[..k])
  {
  }

  // ---------------------------------------------------------------------
  // Whole strings

  lemma {:induction false} DecodeOfEncode(s: string)
    ensures Decode(Encode(s)) == Ok(s)
  {
    if |s| > 0 {
      var head := EncodeChar(s[0]);
      var bs := Encode(s);
      DecodeCharOfEncodeChar(s[0], Encode(s[1..]));
      assert bs[|head|..] == Encode(s[1..]);
      DecodeOfEncode(s[1..]);
      assert [s[0]] + s[1..] == s;
    }
  }

  /** A successful decode is the first character followed by the decode of
      the remaining bytes. */
  lemma DecodeStep(bs: seq<byte>)
    requires |bs| > 0 && Decode(bs).Ok?
    ensures DecodeChar(bs).Some?
    ensures Decode(bs[DecodeChar(bs).value.1..]).Ok?
    ensures Decode(bs).value == [DecodeChar(bs).value.0] + Decode(bs[DecodeChar(bs).value.1..]).value
  {
  }

  lemma {:induction false} EncodeOfDecode(bs: seq<byte>)
    requires Decode(bs).Ok?
    ensures Encode(Decode(bs).value) == bs
    decreases |bs|
  {
    if |bs| > 0 {
      DecodeStep(bs);
      var c := DecodeChar(bs).value.0;
      var n := DecodeChar(bs).value.1;
      var rest := Decode(bs[n..]).value;
      var s := Decode(bs).value;
      DecodeCharSound(bs);
      EncodeOfDecode(bs[n..]);
      assert s[0] == c && s[1..] == rest;
      assert Encode(s) == EncodeChar(c) + Encode(rest);
      assert bs == bs[..n] + bs[n..];
    }
  }

  /** `String::from_utf8` and the encoding are inverse: a byte string decodes
      to `s` exactly when it is the encoding of `s`. */
  lemma DecodeIffEncode(bs: seq<byte>, s: string)
    ensures Decode(bs) == Ok(s) <==> Encode(s) == bs
  {
    if Decode(bs) == Ok(s) {
      EncodeOfDecode(bs);
    }
    if Encode(s) == bs {
      DecodeOfEncode(s);
    }
  }

  /** Decoding fails exactly on byte strings that are not UTF-8. */
  lemma DecodeOkIffUtf8(bs: seq<byte>)
    ensures Decode(bs).Ok? <==> IsUtf8(bs)
  {
    if Decode(bs).Ok? {
      EncodeOfDecode(bs);
    }
    if IsUtf8(bs) {
      var s: string :| Encode(s) == bs;
      DecodeOfEncode(s);
    }
  }

  /** On failure, everything before `valid_up_to` is well-formed. */
  lemma {:induction false} ValidUpToIsValidPrefix(bs: seq<byte>)
    requires Decode(bs).Err?
    ensures Decode(bs[..Decode(bs).error.validUpTo]).Ok?
    decreases |bs|
  {
    var e := Decode(bs).error.validUpTo;
    if DecodeChar(bs).Some? {
      var n := DecodeChar(bs).value.1;
      ValidUpToIsValidPrefix(bs[n..]);
      var e' := Decode(bs[n..]).error.validUpTo;
      assert e == n + e';
      var p := bs[..e];
      DecodeCharPrefix(bs, e);
      assert p[n..] == bs[n..][..e'];
    }
  }

  /** `valid_up_to` is the largest such offset: every longer prefix is
      ill-formed. */
  lemma {:induction false} ValidUpToIsLargest(bs: seq<byte>, k: nat)
    requires Decode(bs).Err? && Decode(bs).error.validUpTo < k <= |bs|
    ensures Decode(bs[..k]).Err?
    decreases |bs|
  {
    var p := bs[..k];
    if DecodeChar(bs).Some? {
      var n := DecodeChar(bs).value.1;
      var e' := Decode(bs[n..]).error.validUpTo;
      DecodeCharPrefix(bs, k);
      assert p[n..] == bs[n..][..k - n];
      ValidUpToIsLargest(bs[n..], k - n);
    } else if DecodeChar(p).Some? {
      DecodeCharExtend(bs, k);
    }
  }
}

=== FILE: wrappers.dfy ===
/** Failure-compatible wrappers: `Option` for "absent", `Result` for the
    `Result<T, E>` values the codec returns. Both work with `:-`. */
module Wrappers {

  datatype Option<+T> = None | Some(value: T)

  datatype Result<+T, +E> = Ok(value: T) | Err(error: E) {

    predicate IsFailure() {
      Err?
    }

    function PropagateFailure<U>(): Result<U, E>
      requires Err?
    {
      Err(error)
    }

    function Extract(): T
      requires Ok?
    {
      value
    }
  }
}
